=== FILE: README.md ===
# Products-per-category cache: a Dafny model

This project models the cache-aside core of `RedisWithCacheUpdate`. That core has two parts.

- `DistributedCacheExtensions` holds typed `SetAsync`, `TryGetValue`, `GetAsync` and `GetOrSetAsync` helpers over a Redis store that holds JSON documents.
- `ProductsByCategoryCacheService` computes the products-per-category aggregate from the database. It writes the aggregate under the constant key `LIST_PRODUCTS_BY_CATEGORY_REDIS_KEY` and reads it back.

The Redis store is a `map<string, Entry>`. Each `Entry` holds the document text and a TTL in minutes. Every Redis command the code issues is a pure transition on that map: `JSON.GET`, `JSON.SET`, `JSON.DEL` and `EXPIRE`. JSON serialization is an opaque codec value: `encode`, a default-options `decode`, and the lenient `decodeLenient` that `serializerOptions` configures. The members that need a round trip require the codec law `Lawful`. That law says both decoders read back what `encode` wrote, that compact JSON text is non-empty and has none of `(`, `)`, space or `,` at either end, and that empty input is not JSON. Exceptions become `Result` failures. Null becomes `Option.None`.

Modules, leaves first:

- `Wrappers`: `Option` and `Result`.
- `Trimming`: `String.Trim('(', ')', ' ', ',')` over `seq<char>`.
- `RedisStore`: the store map, the constant key and the four Redis commands.
- `JsonCodec`: the opaque codec and its laws.
- `CacheExtensions`: the extension methods.
- `Statistics`: the database snapshot, the `ProductsByCategory` rows and `GetStatistics`.
- `ProductsCacheService`: the service.
- `Findings`: three defects of the code as written, each with a corrected definition.

The model follows the code. In several places the code does something other than its names and configured options suggest:

- `SetAsync` writes the constant key whatever `key` it is given (`DistributedCacheExtensions.cs:34-36`).
- The service configures a sliding 30-minute and an absolute 1-hour expiry (`ProductsByCategoryCacheService.cs:18-20`). The code applies neither option: each write sets a fixed 30-minute TTL, and reads never renew it.
- `SetCacheAsync` is the method run when the application starts (`IProductsByCateogryCacheService.cs:12`). It always rewrites the entry, even when the cache is already populated.
- `GetByKeyAsync` builds a JSONPath filter (`ProductsByCategoryCacheService.cs:24`). The filter is never sent to Redis.
- `GetListFromCacheAsync` has its own "cache empty" null check (`ProductsByCategoryCacheService.cs:35-38`). A read of an empty cache fails with a `JsonException` before that check is reached.

## Model

| member | source | states |
|---|---|---|
| `Trimming.TrimStart` | RedisWithCacheUpdate/Extensions/DistributedCacheExtensions.cs:58 | the result is a suffix of the input, everything removed is a trim character, and the result does not start with one |
| `Trimming.TrimEnd` | RedisWithCacheUpdate/Extensions/DistributedCacheExtensions.cs:58 | the result is a prefix of the input, everything removed is a trim character, and the result does not end with one |
| `Trimming.Trim` | RedisWithCacheUpdate/Extensions/DistributedCacheExtensions.cs:58 | the result is a contiguous part of the input; everything before and after it is a trim character; it neither starts nor ends with `(`, `)`, space or `,` |
| `Trimming.TrimIdempotent` | RedisWithCacheUpdate/Extensions/DistributedCacheExtensions.cs:58 | trimming a trimmed string changes nothing |
| `Trimming.TrimStartSkips` | RedisWithCacheUpdate/Extensions/DistributedCacheExtensions.cs:58 | a leading run of trim characters does not affect the start trim |
| `Trimming.TrimEndSkips` | RedisWithCacheUpdate/Extensions/DistributedCacheExtensions.cs:58 | a trailing run of trim characters does not affect the end trim |
| `Trimming.TrimKeepsBareCore` | RedisWithCacheUpdate/Extensions/DistributedCacheExtensions.cs:58 | text whose ends are not trim characters, surrounded by trim characters, comes out of the trim exactly |
| `Trimming.TrimKeepsNothing` | RedisWithCacheUpdate/Extensions/DistributedCacheExtensions.cs:58 | a string made only of trim characters trims to the empty string |
| `CacheExtensions.SetAsync` | RedisWithCacheUpdate/Extensions/DistributedCacheExtensions.cs:27-37 | afterwards the constant key holds the encoded value with a 30-minute TTL, whatever `key` and `options` are; no other key is added, removed or changed |
| `CacheExtensions.SetAsyncWithDefaults` | RedisWithCacheUpdate/Extensions/DistributedCacheExtensions.cs:20-25 | the two-argument overload leaves the same store as the four-argument one: constant key, 30-minute TTL |
| `CacheExtensions.SetAsyncIgnoresKeyAndOptions` | RedisWithCacheUpdate/Extensions/DistributedCacheExtensions.cs:27-36 | two writes that differ only in key or options leave the same store |
| `CacheExtensions.TryGetValue` | RedisWithCacheUpdate/Extensions/DistributedCacheExtensions.cs:39-51 | reads `key` itself; reports false with a default value exactly when the text at `key` is missing or empty; throws exactly when non-empty text is not JSON; otherwise reports true, with the decoded value when the text decodes to one and with no value when it decodes to `null` |
| `CacheExtensions.TryGetValueAfterSet` | RedisWithCacheUpdate/Extensions/DistributedCacheExtensions.cs:27-51 | after `SetAsync`, `TryGetValue` on the constant key returns true and the written value |
| `CacheExtensions.GetAsync` | RedisWithCacheUpdate/Extensions/DistributedCacheExtensions.cs:53-68 | decodes the trimmed text of the tuple `(document at the constant key, path ?? "")`; succeeds exactly when that decodes to a value; throws `ArgumentNullException("list")` exactly when it decodes to null, so it never returns null |
| `CacheExtensions.DecoderInputWithoutPath` | RedisWithCacheUpdate/Extensions/DistributedCacheExtensions.cs:57-58 | with a null or empty path and a stored document whose ends are not trim characters, the decoder receives exactly the stored document |
| `CacheExtensions.DecoderInputWithPath` | RedisWithCacheUpdate/Extensions/DistributedCacheExtensions.cs:57-58 | with such a document and a path whose ends are not trim characters, the decoder receives the document, then `", "`, then the path; with the constant key missing, it receives the path alone |
| `CacheExtensions.GetAsyncOnMissingKey` | RedisWithCacheUpdate/Extensions/DistributedCacheExtensions.cs:57-65 | when the constant key is missing, the tuple `"(, )"` trims to empty text and the read throws a `JsonException` |
| `CacheExtensions.GetAsyncAfterSetAsync` | RedisWithCacheUpdate/Extensions/DistributedCacheExtensions.cs:27-68 | a value written by `SetAsync` is returned by `GetAsync` without a path, whatever keys and options the two calls name |
| `CacheExtensions.GetAsyncReadsOnlyListKey` | RedisWithCacheUpdate/Extensions/DistributedCacheExtensions.cs:53-57 | the result depends only on the text at the constant key and the path, never on `key` or `options` |
| `CacheExtensions.GetOrSetAsync` | RedisWithCacheUpdate/Extensions/DistributedCacheExtensions.cs:70-88 | on a hit it returns the cached value without running the task and without changing the store; otherwise it runs the task once, returns its result and writes to the constant key only when that result is non-null; it throws exactly when `TryGetValue` does; a key other than the constant is never populated |
| `CacheExtensions.GetOrSetAsyncHitsAfterMiss` | RedisWithCacheUpdate/Extensions/DistributedCacheExtensions.cs:78-87 | on the constant key, a call after a computing miss is a hit that returns the computed value and runs no task |
| `Statistics.CountProducts` | RedisWithCacheUpdate/Services/ProductsByCategoryCacheService.cs:73 | the count equals the number of product positions whose `CategoryId` is the category's id |
| `Statistics.Rows` | RedisWithCacheUpdate/Services/ProductsByCategoryCacheService.cs:70-74 | one row per category, in order, each with the category's name and its number of products |
| `Statistics.GetStatistics` | RedisWithCacheUpdate/Services/ProductsByCategoryCacheService.cs:66-78 | one row per category, so the output is as long as the category list and in category order; `CategoryName` is the category's `Name` and `ProductCount` is the number of products with that `CategoryId` |
| `Statistics.EmptyCategoryCountsZero` | RedisWithCacheUpdate/Services/ProductsByCategoryCacheService.cs:68-75 | a category without products still gets a row, with a count of 0 |
| `Statistics.RowsTotal` | RedisWithCacheUpdate/Services/ProductsByCategoryCacheService.cs:68-75 | with distinct category ids, the counts sum to the number of products that belong to one of the categories |
| `Statistics.StatisticsCountEveryProduct` | RedisWithCacheUpdate/Data/AppDbContext.cs:25-35 | under the primary key on `Category.Id` and the foreign key from `Product.CategoryId`, the `ProductCount` column sums to the number of products |
| `ProductsCacheService.CategoryPath` | RedisWithCacheUpdate/Services/ProductsByCategoryCacheService.cs:24 | the JSONPath filter selector (section 2.3.5 of RFC 9535) is the fixed prefix, then `key` verbatim with no escaping, then the fixed suffix; it starts with `$` and ends with `]` |
| `ProductsCacheService.GetByKeyAsync` | RedisWithCacheUpdate/Services/ProductsByCategoryCacheService.cs:22-29 | the row decoder always receives the whole text at the constant key: whatever that text is, the lookup succeeds exactly when the decoder accepts the trimmed tuple text and returns the row it decodes; when that key holds a document whose ends are not trim characters, the lookup succeeds exactly when the decoder accepts the document, then `", "`, then the filter text, and returns the row it decodes; when the key is missing, the decoder receives the filter text alone; any failure is a `JsonException` or `ArgumentNullException("list")` |
| `ProductsCacheService.GetByKeyAsyncDecodesWholeDocument` | RedisWithCacheUpdate/Services/ProductsByCategoryCacheService.cs:24-26 | the filter never selects anything: the decoder receives the whole stored document followed by the filter text |
| `ProductsCacheService.GetListFromCacheAsync` | RedisWithCacheUpdate/Services/ProductsByCategoryCacheService.cs:31-41 | returns exactly the list the stored text decodes to; fails whenever the text does not decode to a list; its own null-check error never occurs |
| `ProductsCacheService.SetStatistics` | RedisWithCacheUpdate/Services/ProductsByCategoryCacheService.cs:61-64 | the constant key holds the encoded rows with a 30-minute TTL and all other keys are unchanged |
| `ProductsCacheService.DropCacheIfExist` | RedisWithCacheUpdate/Services/ProductsByCategoryCacheService.cs:80-87 | deletes only when the entry is missing or empty; a present document is never removed; fails exactly when a present document is not JSON |
| `ProductsCacheService.SetCacheAsync` | RedisWithCacheUpdate/Services/ProductsByCategoryCacheService.cs:43-50 | fails exactly when a present document is not JSON; otherwise the constant key ends holding the fresh aggregate with a 30-minute TTL, and nothing else changes |
| `ProductsCacheService.UpdateCacheAsync` | RedisWithCacheUpdate/Services/ProductsByCategoryCacheService.cs:52-59 | whatever the prior store, the constant key ends holding the freshly computed aggregate with a 30-minute TTL; other keys are untouched |
| `ProductsCacheService.SetCacheAsyncAgreesWithUpdate` | RedisWithCacheUpdate/Services/ProductsByCategoryCacheService.cs:43-59 | when start-up population succeeds, it leaves the same store as a rebuild |
| `ProductsCacheService.CacheOptionsHaveNoEffect` | RedisWithCacheUpdate/Services/ProductsByCategoryCacheService.cs:18-64 | the configured sliding and absolute expiry do not reach the store: a write with any options gives the same store, with a 30-minute TTL |
| `ProductsCacheService.UpdateThenReadRoundTrip` | RedisWithCacheUpdate/Services/ProductsByCategoryCacheService.cs:31-59 | a read right after a rebuild returns exactly the freshly computed aggregate |
| `ProductsCacheService.ReadOfEmptyCacheFails` | RedisWithCacheUpdate/Services/ProductsByCategoryCacheService.cs:31-41 | reading an unpopulated cache fails with a `JsonException` and never returns an empty or default list |
| `ProductsCacheService.SetCacheAsyncIdempotent` | RedisWithCacheUpdate/Services/ProductsByCategoryCacheService.cs:43-50 | populating twice leaves the same store as populating once |
| `Findings.GetOrSetAsyncNeverCachesOtherKeys` | RedisWithCacheUpdate/Extensions/DistributedCacheExtensions.cs:70-88 | for a key other than the constant, two calls in a row both run the task, and the key is never populated |
| `Findings.SetAsyncAtKey` | RedisWithCacheUpdate/Extensions/DistributedCacheExtensions.cs:27-37 | corrected write: the given key holds the encoded value with a 30-minute TTL and other keys are unchanged |
| `Findings.SetAsyncAtKeyAgreesOnListKey` | RedisWithCacheUpdate/Extensions/DistributedCacheExtensions.cs:34-36 | on the constant key the corrected write equals the written one, so the service's writes are unaffected |
| `Findings.GetOrSetAsyncAtKey` | RedisWithCacheUpdate/Extensions/DistributedCacheExtensions.cs:70-88 | corrected cache-aside: a hit returns the cached value, the one the text at `key` decodes to, and leaves the store alone; a miss returns the computed value and writes it under `key` when it is non-null |
| `Findings.GetOrSetAsyncAtKeyHitsAfterMiss` | RedisWithCacheUpdate/Extensions/DistributedCacheExtensions.cs:78-87 | with the correction, for any key, the call after a computing miss is a hit and runs no task |
| `Findings.GetByKeyAsyncAlwaysFails` | RedisWithCacheUpdate/Services/ProductsByCategoryCacheService.cs:22-29 | after a rebuild, looking up any category name throws a `JsonException` |
| `Findings.FindRow` | RedisWithCacheUpdate/Services/ProductsByCategoryCacheService.cs:24 | returns a row with the requested `CategoryName` if one exists, and none exactly when no row has that name |
| `Findings.GetByCategory` | RedisWithCacheUpdate/Services/ProductsByCategoryCacheService.cs:22-29 | corrected lookup: it succeeds exactly when the stored list is readable and has a row with the requested name, and any row it returns has that name and comes from the list; not-found happens exactly when the list is readable and has no such row; a failed read passes its error through |
| `Findings.GetByCategoryAfterUpdate` | RedisWithCacheUpdate/Services/ProductsByCategoryCacheService.cs:22-29 | after a rebuild, the corrected lookup succeeds exactly when some category has that name, and returns that category's product count |
| `Findings.DropCacheIfExistNeverDrops` | RedisWithCacheUpdate/Services/ProductsByCategoryCacheService.cs:80-87 | when the entry is missing or non-empty, the drop step leaves the store exactly as it was |
| `Findings.DropCacheIfPresent` | RedisWithCacheUpdate/Services/ProductsByCategoryCacheService.cs:80-87 | corrected drop: it fails exactly when the stored text is not JSON; otherwise it deletes the constant key unconditionally, so the key is absent afterwards |
| `Findings.SetCacheAsyncUnaffectedByDropFix` | RedisWithCacheUpdate/Services/ProductsByCategoryCacheService.cs:43-50 | with the corrected drop, start-up population leaves the same store as before the correction |

## Left out

- JSON serialization internals: the naming policy, indentation, null-field omission and trailing-comma handling of `serializerOptions` are not modelled. The codec is an opaque value. The round-trip law `Lawful` and the trailing-text law `RejectsTrailingText` are hypotheses of the lemmas that need them, not proved facts.
- Redis and NRedisStack client internals: RedisJSON may re-serialize a document on `JSON.GET`. The model returns the stored text unchanged. A `JSON.SET` on an existing key keeps that key's TTL in the model. No stated property depends on this, because `SetAsync` always sets the TTL right after the write.
- Time: the TTL is a number of minutes. No clock is simulated, so expiry and the "expires at write time plus TTL" behaviour are not modelled.
- Redis failures: every store command succeeds in the model. In the C# code any `JSON.GET`, `JSON.SET`, `JSON.DEL` or `EXPIRE` can throw, for a lost connection, a timeout or a `WRONGTYPE` reply, and nothing catches it. So a failed write-back fails the whole `GetOrSetAsync` (`DistributedCacheExtensions.cs:85`), and a failed `EXPIRE` after a successful `JSON.SET` leaves the key without its 30-minute TTL (`DistributedCacheExtensions.cs:34-36`). The model treats the `JSON.SET` and `EXPIRE` pair as one step.
- Concurrency: async suspension, interleaved rebuilds and cache stampede are left out. Each operation is one atomic transition. The order delete, then compute, then set appears only as the order of composition inside `UpdateCacheAsync`.
- The `task` of `GetOrSetAsync` is modelled by the value it produces, plus an `invokedTask` flag. Exceptions thrown by the task are not modelled.
- `TryGetValue` returns `default(T)` on a miss. The model returns `None` for every `T`, including value types.
- `SetAsync` with a null value is not modelled, because no caller passes null.
- The value of `Constants.LIST_PRODUCTS_BY_CATEGORY_REDIS_KEY` is not part of this model. `Constants.cs` is not part of this model either. The key is an unspecified constant string, and every property holds whatever its value is.
- `Model/Category.cs` is not part of this model. The fields `Id`, `Name` and `Description` come from how `Program.cs` seeds categories. Only `Id` and `Name` are used.
- The aggregation query has no `OrderBy`. The model returns rows in the order of the category list.
- `ProductCount` is a `nat`. A category with more than 2^31−1 products, which would overflow the C# `int`, is not modelled.
- `Product.UnitPrice` (floating point) and the `Product.Category` navigation property are left out. Only `CategoryId` links a product to a category.
- `Program.cs`, `Data/AppDbContext.cs`, `Controllers/StatisticController.cs` and `Services/IProductsByCateogryCacheService.cs` are left out. They are start-up wiring, EF Core configuration, an HTTP adapter over an extension method defined elsewhere in the program, and a behaviour-free interface. The only thing taken from `AppDbContext.cs` is the key structure used by `Statistics.StatisticsCountEveryProduct`.
- The logger passed to the service is left out.
- Findings.FindRow: its contract does not state that the row is the first match. The body does return the first match.

## Findings

| source | as written | input that shows it | evidently intended | confidence | as-written member | corrected member |
|---|---|---|---|---|---|---|
| RedisWithCacheUpdate/Extensions/DistributedCacheExtensions.cs:34 | `SetAsync` writes and expires the constant key, ignoring `key`, while `GetOrSetAsync` looks the value up under `key` | `GetOrSetAsync` twice with any key other than the constant, on a store without that key: both calls run the task | the value is written under `key`, so the second call is a hit | not executed; high | `Findings.GetOrSetAsyncNeverCachesOtherKeys` | `Findings.GetOrSetAsyncAtKeyHitsAfterMiss` |
| RedisWithCacheUpdate/Services/ProductsByCategoryCacheService.cs:24-26 | the JSONPath filter only becomes the second item of the tuple text in `GetAsync`; the decoder receives the whole list document, then `", "`, then the filter | `UpdateCacheAsync`, then `GetByKeyAsync` with any name, for example `"Books"`: `JsonException` | return the row whose `CategoryName` equals the key, or a not-found error | not executed; high | `Findings.GetByKeyAsyncAlwaysFails` | `Findings.GetByCategoryAfterUpdate` |
| RedisWithCacheUpdate/Services/ProductsByCategoryCacheService.cs:82 | `DropCacheIfExist` deletes when `TryGetValue` reports the key absent | a store whose constant key holds the aggregate: the drop step leaves it in place | delete the entry when it exists | not executed; medium | `Findings.DropCacheIfExistNeverDrops` | `Findings.DropCacheIfPresent` |

=== FILE: cache_extensions.dfy ===
/** `DistributedCacheExtensions`: typed get, set and get-or-compute helpers
    over the Redis store. Every operation is a pure function from the store
    (and its arguments) to its result and, for writes, the next store. */
module CacheExtensions {

  import opened Wrappers
  import opened Trimming
  import opened RedisStore
  import opened JsonCodec

  /** `DistributedCacheEntryOptions`, in minutes. */
  datatype EntryOptions = EntryOptions(slidingMinutes: Option<nat>, absoluteMinutes: Option<nat>)

  /** Sliding 30 minutes, absolute 1 hour: the options built by the
      two-argument `SetAsync` and by `GetOrSetAsync` when none are passed. */
  const DefaultOptions := EntryOptions(Some(30), Some(60))

  /** The TTL `SetAsync` always gives the key it writes. */
  const ExpiryMinutes: nat := 30

  /** The exceptions the extensions and the service throw. */
  datatype CacheError =
    | JsonException                    // the deserializer rejected its input
    | ArgumentNull(paramName: string)  // `new ArgumentNullException(paramName)`

  /** The store after a successful write of `text`: the constant key holds it
      with a 30-minute TTL and nothing else differs from `store`. */
  function Written(store: Store, text: string): Store {
    store[ListKey := Entry(text, Some(ExpiryMinutes))]
  }

  /** The four-argument `SetAsync`: serializes `value`, sets it as the whole
      document under the constant key, then expires that key after 30
      minutes. Neither `key` nor `options` is used. */
  function SetAsync<T>(store: Store, key: string, value: T, options: EntryOptions, codec: Codec<T>): (r: Store)
    ensures ListKey in r && r[ListKey] == Entry(codec.encode(value), Some(ExpiryMinutes))
    ensures r.Keys == store.Keys + {ListKey}
    ensures forall k :: k in store && k != ListKey ==> r[k] == store[k]
  {
    var json := codec.encode(value);
    var documentSet := JsonSet(store, ListKey, json);
    KeyExpire(documentSet, ListKey, ExpiryMinutes)
  }

  /** The two-argument `SetAsync`: delegates with the default options. */
  function SetAsyncWithDefaults<T>(store: Store, key: string, value: T, codec: Codec<T>): (r: Store)
    ensures r == Written(store, codec.encode(value))
  {
    SetAsync(store, key, value, DefaultOptions, codec)
  }

  /** `TryGetValue`: reads `key` itself. Empty or missing text reports
      `(false, default)`; otherwise the text is deserialized with the lenient
      options and `true` is reported, even when the document is `null`. */
  function TryGetValue<T>(store: Store, key: string, codec: Codec<T>): (r: Result<(bool, Option<T>), CacheError>)
    ensures r.Success? && !r.value.0 <==> key !in store || store[key].text == []
    ensures r.Success? && !r.value.0 ==> r.value.1 == None
    ensures r.Failure? <==> key in store && store[key].text != [] && codec.decodeLenient(store[key].text).Malformed?
    ensures r.Failure? ==> r.error == JsonException
    ensures r.Success? && r.value.1.Some? ==> key in store && codec.decodeLenient(store[key].text) == Parsed(r.value.1.value)
    ensures key in store && store[key].text != [] && codec.decodeLenient(store[key].text).Parsed? ==>
              r == Success((true, Some(codec.decodeLenient(store[key].text).value)))
    ensures key in store && store[key].text != [] && codec.decodeLenient(store[key].text).Null? ==>
              r == Success((true, None))
  {
    var valString := JsonGet(store, key);
    if valString == [] then Success((false, None))
    else
      match codec.decodeLenient(valString)
      case Malformed => Failure(JsonException)
      case Null => Success((true, None))
      case Parsed(v) => Success((true, Some(v)))
  }

  /** The text of the C# value tuple `(document, path ?? "")`. */
  function RenderTuple(document: string, path: Option<string>): string {
    "(" + document + ", " + path.GetOr("") + ")"
  }

  /** What `GetAsync` hands to the deserializer: the rendered tuple of the
      document at the constant key and the path, trimmed at both ends. */
  function DecoderInput(store: Store, path: Option<string>): string {
    Trim(RenderTuple(JsonGet(store, ListKey), path))
  }

  /** `GetAsync`: ignores `key` and `options`, reads the whole document at the
      constant key, and deserializes the trimmed tuple text with the default
      options; a `null` result throws `ArgumentNullException("list")`. */
  function GetAsync<T>(store: Store, key: string, options: Option<EntryOptions>, path: Option<string>, codec: Codec<T>): (r: Result<T, CacheError>)
    ensures r.Success? <==> codec.decode(DecoderInput(store, path)).Parsed?
    ensures r.Success? ==> codec.decode(DecoderInput(store, path)) == Parsed(r.value)
    ensures codec.decode(DecoderInput(store, path)).Null? <==> r == Failure(ArgumentNull("list"))
    ensures codec.decode(DecoderInput(store, path)).Malformed? <==> r == Failure(JsonException)
  {
    var json := RenderTuple(JsonGet(store, ListKey), path);
    var jsonWithoutParenthesis := Trim(json);
    match codec.decode(jsonWithoutParenthesis)
    case Malformed => Failure(JsonException)
    case Null => Failure(ArgumentNull("list"))
    case Parsed(list) => Success(list)
  }

  /** What `GetOrSetAsync` returns, the store it leaves, and whether it
      awaited `task`. */
  datatype GetOrSetOutcome<T> = GetOrSetOutcome(value: Option<T>, store: Store, invokedTask: bool)

  /** The cache hit condition of `GetOrSetAsync`: `key` holds non-empty text
      that deserializes to a non-null value. */
  predicate IsHit<T>(store: Store, key: string, codec: Codec<T>) {
    key in store && store[key].text != [] && codec.decodeLenient(store[key].text).Parsed?
  }

  /** `GetOrSetAsync`: `computed` is what awaiting `task` yields (`None` for
      null). A hit returns the cached value; otherwise the task runs and a
      non-null result is written through `SetAsync`. */
  function GetOrSetAsync<T>(store: Store, key: string, computed: Option<T>, options: Option<EntryOptions>, codec: Codec<T>): (r: Result<GetOrSetOutcome<T>, CacheError>)
    ensures r.Failure? <==> key in store && store[key].text != [] && codec.decodeLenient(store[key].text).Malformed?
    ensures r.Success? ==> (r.value.invokedTask <==> !IsHit(store, key, codec))
    ensures r.Success? && !r.value.invokedTask ==>
              && r.value.store == store
              && r.value.value.Some?
              && codec.decodeLenient(store[key].text) == Parsed(r.value.value.value)
    ensures r.Success? && r.value.invokedTask ==>
              && r.value.value == computed
              && r.value.store == (if computed.Some? then Written(store, codec.encode(computed.value)) else store)
    ensures r.Success? && key != ListKey ==> (key in r.value.store <==> key in store)
  {
    var opts := if options.None? then DefaultOptions else options.value;
    match TryGetValue(store, key, codec)
    case Failure(e) => Failure(e)
    case Success((found, cached)) =>
      if found && cached.Some? then
        Success(GetOrSetOutcome(cached, store, false))
      else if computed.Some? then
        Success(GetOrSetOutcome(computed, SetAsync(store, key, computed.value, opts, codec), true))
      else
        Success(GetOrSetOutcome(computed, store, true))
  }

  /** Writes land on the constant key whatever `key` and `options` are, so
      two calls that differ only in those leave the same store. */
  lemma SetAsyncIgnoresKeyAndOptions<T>(store: Store, key1: string, key2: string, value: T,
                                        options1: EntryOptions, options2: EntryOptions, codec: Codec<T>)
    ensures SetAsync(store, key1, value, options1, codec) == SetAsync(store, key2, value, options2, codec)
    ensures SetAsync(store, key1, value, options1, codec) == Written(store, codec.encode(value))
  {
  }

  /** `TryGetValue` reads back what was stored: after `SetAsync`, the constant
      key reports `(true, value)`. */
  lemma TryGetValueAfterSet<T(!new)>(store: Store, key: string, value: T, options: EntryOptions, codec: Codec<T>)
    requires Lawful(codec)
    ensures TryGetValue(SetAsync(store, key, value, options, codec), ListKey, codec) == Success((true, Some(value)))
  {
    assert Bare(codec.encode(value));
  }

  /** With no path and a bare document, the trim removes exactly the tuple's
      own punctuation: the deserializer sees the stored document verbatim. */
  lemma DecoderInputWithoutPath(store: Store, path: Option<string>)
    requires path == None || path == Some("")
    requires ListKey in store && Bare(store[ListKey].text)
    ensures DecoderInput(store, path) == store[ListKey].text
  {
    var document := store[ListKey].text;
    assert RenderTuple(document, path) == "(" + document + ", )";
    TrimKeepsBareCore("(", document, ", )");
  }

  /** With a path ending in a non-trim character, the path is not trimmed
      away: the deserializer sees the document followed by `", "` and the
      path, or the path alone when the constant key is missing. */
  lemma DecoderInputWithPath(store: Store, path: string)
    requires Bare(path)
    ensures ListKey in store && Bare(store[ListKey].text) ==>
              DecoderInput(store, Some(path)) == FollowedBy(store[ListKey].text, path)
    ensures ListKey !in store ==> DecoderInput(store, Some(path)) == path
  {
    if ListKey in store && Bare(store[ListKey].text) {
      var document := store[ListKey].text;
      assert RenderTuple(document, Some(path)) == "(" + FollowedBy(document, path) + ")";
      assert Bare(FollowedBy(document, path));
      TrimKeepsBareCore("(", FollowedBy(document, path), ")");
    } else if ListKey !in store {
      assert RenderTuple("", Some(path)) == "(, " + path + ")";
      assert AllTrimChars("(, ");
      TrimKeepsBareCore("(, ", path, ")");
    }
  }

  /** A missing constant key renders as `"(, )"` without a path, which trims
      to nothing; empty input is not JSON, so `GetAsync` throws a
      `JsonException` rather than returning a default. */
  lemma GetAsyncOnMissingKey<T(!new)>(store: Store, key: string, options: Option<EntryOptions>, codec: Codec<T>)
    requires Lawful(codec)
    requires ListKey !in store
    ensures DecoderInput(store, None) == []
    ensures GetAsync(store, key, options, None, codec) == Failure(JsonException)
  {
    assert RenderTuple("", None) == "(" + ", )";
    assert AllTrimChars("(, )");
    TrimKeepsNothing("(, )");
  }

  /** Round trip through the store: what `SetAsync` wrote, `GetAsync` without
      a path returns, whatever keys either call names. */
  lemma GetAsyncAfterSetAsync<T(!new)>(store: Store, setKey: string, getKey: string, value: T,
                                       setOptions: EntryOptions, getOptions: Option<EntryOptions>, codec: Codec<T>)
    requires Lawful(codec)
    ensures GetAsync(SetAsync(store, setKey, value, setOptions, codec), getKey, getOptions, None, codec) == Success(value)
  {
    var written := SetAsync(store, setKey, value, setOptions, codec);
    assert Bare(codec.encode(value));
    DecoderInputWithoutPath(written, None);
  }

  /** `GetAsync` reads nothing but the constant key's text: stores that agree
      there give the same result, whatever keys and options are passed. */
  lemma GetAsyncReadsOnlyListKey<T>(store1: Store, store2: Store, key1: string, key2: string,
                                    options1: Option<EntryOptions>, options2: Option<EntryOptions>,
                                    path: Option<string>, codec: Codec<T>)
    requires JsonGet(store1, ListKey) == JsonGet(store2, ListKey)
    ensures GetAsync(store1, key1, options1, path, codec) == GetAsync(store2, key2, options2, path, codec)
  {
  }

  /** Cache-aside on the constant key: once a value has been computed and
      written, the next call is a hit that returns it without running the
      task and without touching the store. */
  lemma GetOrSetAsyncHitsAfterMiss<T(!new)>(store: Store, first: T, second: Option<T>,
                                           options: Option<EntryOptions>, codec: Codec<T>)
    requires Lawful(codec)
    requires !IsHit(store, ListKey, codec)
    requires GetOrSetAsync(store, ListKey, Some(first), options, codec).Success?
    ensures var afterMiss := GetOrSetAsync(store, ListKey, Some(first), options, codec).value.store;
            GetOrSetAsync(afterMiss, ListKey, second, options, codec)
              == Success(GetOrSetOutcome(Some(first), afterMiss, false))
  {
    var afterMiss := GetOrSetAsync(store, ListKey, Some(first), options, codec).value.store;
    assert afterMiss[ListKey].text == codec.encode(first);
    assert Bare(codec.encode(first));
    assert codec.decodeLenient(codec.encode(first)) == Parsed(first);
  }
}

=== FILE: findings.dfy ===
/** Three places where the code as written does not do what its names and
    shape evidently intend. Each is shown on the as-written model, and a
    corrected definition is given with the intended property proved. */
module Findings {

  import opened Wrappers
  import opened Trimming
  import opened RedisStore
  import opened JsonCodec
  import opened CacheExtensions
  import opened Statistics
  import opened ProductsCacheService

  // ---------------------------------------------------------------------
  // 1. `SetAsync` writes the constant key instead of `key`, while
  //    `GetOrSetAsync` looks the value up under `key`.

  /** As written: for any key other than the constant one, `GetOrSetAsync`
      never caches. The second call misses just like the first and runs the
      task again, and `key` stays unpopulated. */
  lemma GetOrSetAsyncNeverCachesOtherKeys<T(!new)>(store: Store, key: string, first: T, second: T,
                                                   options: Option<EntryOptions>, codec: Codec<T>)
    requires key != ListKey && key !in store
    ensures GetOrSetAsync(store, key, Some(first), options, codec).Success?
    ensures var once := GetOrSetAsync(store, key, Some(first), options, codec).value;
            && once.invokedTask
            && key !in once.store
            && GetOrSetAsync(once.store, key, Some(second), options, codec).Success?
            && GetOrSetAsync(once.store, key, Some(second), options, codec).value.invokedTask
            && key !in GetOrSetAsync(once.store, key, Some(second), options, codec).value.store
  {
  }

  /** Corrected `SetAsync`: the document lands under the key it is given,
      with the same 30-minute TTL. */
  function SetAsyncAtKey<T>(store: Store, key: string, value: T, codec: Codec<T>): (r: Store)
    ensures key in r && r[key] == Entry(codec.encode(value), Some(ExpiryMinutes))
    ensures r.Keys == store.Keys + {key}
    ensures forall k :: k in store && k != key ==> r[k] == store[k]
  {
    KeyExpire(JsonSet(store, key, codec.encode(value)), key, ExpiryMinutes)
  }

  /** On the constant key the corrected write is the written one, so every
      write the service issues is unaffected by the correction. */
  lemma SetAsyncAtKeyAgreesOnListKey<T>(store: Store, value: T, options: EntryOptions, codec: Codec<T>)
    ensures SetAsyncAtKey(store, ListKey, value, codec) == SetAsync(store, ListKey, value, options, codec)
  {
  }

  /** Corrected `GetOrSetAsync`: as written, except that the computed value
      is written under `key`. */
  function GetOrSetAsyncAtKey<T>(store: Store, key: string, computed: Option<T>, codec: Codec<T>): (r: Result<GetOrSetOutcome<T>, CacheError>)
    ensures r.Failure? <==> key in store && store[key].text != [] && codec.decodeLenient(store[key].text).Malformed?
    ensures r.Success? ==> (r.value.invokedTask <==> !IsHit(store, key, codec))
    ensures r.Success? && !r.value.invokedTask ==>
              && r.value.store == store
              && r.value.value.Some?
              && codec.decodeLenient(store[key].text) == Parsed(r.value.value.value)
    ensures r.Success? && r.value.invokedTask ==>
              && r.value.value == computed
              && r.value.store == (if computed.Some? then store[key := Entry(codec.encode(computed.value), Some(ExpiryMinutes))] else store)
  {
    match TryGetValue(store, key, codec)
    case Failure(e) => Failure(e)
    case Success((found, cached)) =>
      if found && cached.Some? then
        Success(GetOrSetOutcome(cached, store, false))
      else if computed.Some? then
        Success(GetOrSetOutcome(computed, SetAsyncAtKey(store, key, computed.value, codec), true))
      else
        Success(GetOrSetOutcome(computed, store, true))
  }

  /** Corrected cache-aside, for every key: after a miss that computed a
      value, the next call hits, returns that value and runs no task. */
  lemma GetOrSetAsyncAtKeyHitsAfterMiss<T(!new)>(store: Store, key: string, first: T, second: Option<T>, codec: Codec<T>)
    requires Lawful(codec)
    requires GetOrSetAsyncAtKey(store, key, Some(first), codec).Success?
    requires GetOrSetAsyncAtKey(store, key, Some(first), codec).value.invokedTask
    ensures var afterMiss := GetOrSetAsyncAtKey(store, key, Some(first), codec).value.store;
            GetOrSetAsyncAtKey(afterMiss, key, second, codec) == Success(GetOrSetOutcome(Some(first), afterMiss, false))
  {
    var afterMiss := GetOrSetAsyncAtKey(store, key, Some(first), codec).value.store;
    assert afterMiss[key].text == codec.encode(first);
    assert Bare(codec.encode(first));
    assert codec.decodeLenient(codec.encode(first)) == Parsed(first);
  }

  // ---------------------------------------------------------------------
  // 2. `GetByKeyAsync` builds a JSONPath filter but `GetAsync` only prints it
  //    into the tuple text; the whole list document is decoded as one row.

  /** As written: once the cache holds the aggregate, looking a category up
      by name fails with a `JsonException` for every name, because the
      deserializer receives the list document followed by `", "` and the
      filter text. */
  lemma GetByKeyAsyncAlwaysFails(db: Database, store: Store, key: string, ser: Serializers)
    requires Lawful(ser.statistics)
    requires RejectsTrailingText(ser.row, ser.statistics)
    ensures GetByKeyAsync(UpdateCacheAsync(db, store, ser), key, ser) == Failure(JsonException)
  {
    var updated := UpdateCacheAsync(db, store, ser);
    var document := ser.statistics.encode(GetStatistics(db));
    assert Bare(document);
    DecoderInputWithPath(updated, CategoryPath(key));
    assert ser.row.decode(FollowedBy(document, CategoryPath(key))).Malformed?;
  }

  /** Why a corrected lookup can fail. */
  datatype LookupError = CacheFailure(cause: CacheError) | CategoryNotFound(name: string)

  /** The first row whose `CategoryName` is `name`, if there is one. */
  function FindRow(rows: seq<ProductsByCategory>, name: string): (r: Option<ProductsByCategory>)
    ensures r.Some? ==> r.value in rows && r.value.categoryName == name
    ensures r.None? <==> forall row :: row in rows ==> row.categoryName != name
    decreases |rows|
  {
    if rows == [] then None
    else if rows[0].categoryName == name then Some(rows[0])
    else
      assert forall row :: row in rows[1..] ==> row in rows;
      assert forall row :: row in rows ==> row == rows[0] || row in rows[1..];
      FindRow(rows[1..], name)
  }

  /** Corrected `GetByKeyAsync`: read the whole list, then select the row
      the filter `CategoryName == key` was meant to select. */
  function GetByCategory(store: Store, key: string, ser: Serializers): (r: Result<ProductsByCategory, LookupError>)
    ensures r.Success? ==> r.value.categoryName == key
    ensures r.Success? ==> GetListFromCacheAsync(store, ser).Success? && r.value in GetListFromCacheAsync(store, ser).value
    ensures r == Failure(CategoryNotFound(key)) <==>
              GetListFromCacheAsync(store, ser).Success?
              && forall row :: row in GetListFromCacheAsync(store, ser).value ==> row.categoryName != key
    ensures r.Success? <==>
              GetListFromCacheAsync(store, ser).Success?
              && exists row :: row in GetListFromCacheAsync(store, ser).value && row.categoryName == key
    ensures GetListFromCacheAsync(store, ser).Failure? ==>
              r == Failure(CacheFailure(GetListFromCacheAsync(store, ser).error))
  {
    match GetListFromCacheAsync(store, ser)
    case Failure(e) => Failure(CacheFailure(e))
    case Success(rows) =>
      match FindRow(rows, key)
      case Some(row) => Success(row)
      case None => Failure(CategoryNotFound(key))
  }

  /** Corrected lookup after a rebuild: it succeeds exactly when some
      category has that name, and then returns a row of such a category
      with that category's product count. */
  lemma GetByCategoryAfterUpdate(db: Database, store: Store, key: string, ser: Serializers)
    requires Lawful(ser.statistics)
    ensures var r := GetByCategory(UpdateCacheAsync(db, store, ser), key, ser);
            && (r.Success? <==> exists i :: 0 <= i < |db.categories| && db.categories[i].name == key)
            && (r.Failure? ==> r == Failure(CategoryNotFound(key)))
            && (r.Success? ==> exists i :: 0 <= i < |db.categories| && db.categories[i].name == key
                                          && r.value.productCount == |ProductsOf(db.products, db.categories[i].id)|)
  {
    UpdateThenReadRoundTrip(db, store, ser);
    var rows := GetStatistics(db);
    var r := GetByCategory(UpdateCacheAsync(db, store, ser), key, ser);
    if r.Success? {
      var i :| 0 <= i < |rows| && rows[i] == r.value;
      assert db.categories[i].name == key;
    } else {
      forall i | 0 <= i < |db.categories| ensures db.categories[i].name != key {
        assert rows[i] in rows;
      }
    }
  }

  // ---------------------------------------------------------------------
  // 3. `DropCacheIfExist` deletes when `TryGetValue` reports the key ABSENT.

  /** As written: on any store whose constant key is absent or holds a
      non-empty document, the drop step leaves the store exactly as it was,
      so it never drops an existing cache. */
  lemma DropCacheIfExistNeverDrops(store: Store, ser: Serializers)
    requires ListKey !in store || store[ListKey].text != []
    requires DropCacheIfExist(store, ser).Success?
    ensures DropCacheIfExist(store, ser).value == store
  {
    assert ListKey !in store ==> store - {ListKey} == store;
  }

  /** Corrected drop: once the read succeeds, delete the constant key. An
      entry with empty text, which `TryGetValue` reports as absent, is
      deleted too, and deleting a missing key changes nothing; so the
      corrected drop is an unconditional delete after the read, and
      afterwards the key is absent. */
  function DropCacheIfPresent(store: Store, ser: Serializers): (r: Result<Store, CacheError>)
    ensures r.Success? ==> ListKey !in r.value
    ensures r.Success? ==> r.value == store - {ListKey}
    ensures r.Failure? <==> ListKey in store && store[ListKey].text != []
                            && ser.element.decodeLenient(store[ListKey].text).Malformed?
  {
    match TryGetValue(store, ListKey, ser.element)
    case Failure(e) => Failure(e)
    case Success(_) => Success(JsonDel(store, ListKey))
  }

  /** The correction does not change what `SetCacheAsync` leaves behind: the
      write that follows overwrites the key either way. */
  lemma SetCacheAsyncUnaffectedByDropFix(db: Database, store: Store, ser: Serializers)
    requires DropCacheIfPresent(store, ser).Success?
    ensures SetCacheAsync(db, store, ser).Success?
    ensures SetStatistics(DropCacheIfPresent(store, ser).value, GetStatistics(db), ser) == SetCacheAsync(db, store, ser).value
  {
    var dropped := DropCacheIfPresent(store, ser).value;
    var text := ser.statistics.encode(GetStatistics(db));
    assert Written(dropped, text) == Written(store, text);
  }
}

=== FILE: json_codec.dfy ===
/** `System.Text.Json` as an opaque codec. The serializer and the two
    deserializers the extensions use (default options, and the extension's
    own `serializerOptions`) are carried as values; what the model relies on
    is the round-trip law `Lawful`, assumed by the members that need it. */
module JsonCodec {

  import opened Trimming

  /** The outcome of `JsonSerializer.Deserialize<T>`: a `JsonException`
      for text that is not a JSON document of type `T`, `null` for the
      literal `null`, or a value. */
  datatype Decoded<+T> = Malformed | Null | Parsed(value: T)

  /** `Serialize`, `Deserialize` with default options, and `Deserialize`
      with the lenient `serializerOptions` (trailing commas allowed). */
  datatype Codec<!T> = Codec(
    encode: T -> string,
    decode: string -> Decoded<T>,
    decodeLenient: string -> Decoded<T>)

  /** The JSON facts the model relies on: both deserializers read back what
      the serializer wrote; compact JSON text is non-empty and starts and ends
      with none of `(`, `)`, space or `,`; and empty input is not JSON. */
  ghost predicate Lawful<T(!new)>(c: Codec<T>) {
    && (forall v :: Bare(c.encode(v))
                    && c.decode(c.encode(v)) == Parsed(v)
                    && c.decodeLenient(c.encode(v)) == Parsed(v))
    && c.decode([]).Malformed?
    && c.decodeLenient([]).Malformed?
  }

  /** A document followed by `", "` and further text, as a value tuple
      renders its two items. */
  function FollowedBy(document: string, rest: string): string {
    document + ", " + rest
  }

  /** `reader` rejects any document that `writer` produced once it is followed
      by `", "` and more text: a JSON text holds exactly one value. */
  ghost predicate RejectsTrailingText<A(!new), B(!new)>(reader: Codec<A>, writer: Codec<B>) {
    forall v, rest :: reader.decode(FollowedBy(writer.encode(v), rest)).Malformed?
  }
}

=== FILE: products_cache_service.dfy ===
/** `ProductsByCategoryCacheService`: builds the products-per-category
    aggregate from the database and keeps it, as one JSON document, under the
    constant key of the Redis store. */
module ProductsCacheService {

  import opened Wrappers
  import opened Trimming
  import opened RedisStore
  import opened JsonCodec
  import opened CacheExtensions
  import opened Statistics

  /** What `JsonSerializer.Deserialize<object>` produces for a document. */
  datatype JsonElement = JsonElement(raw: string)

  /** The three instantiations of the serializer the service uses: the list
      of rows, a single row (`GetByKeyAsync`), and `object`
      (`DropCacheIfExist`). */
  datatype Serializers = Serializers(
    statistics: Codec<seq<ProductsByCategory>>,
    row: Codec<ProductsByCategory>,
    element: Codec<JsonElement>)

  /** The service's `CacheOptions`: sliding 30 minutes, absolute 1 hour. */
  const CacheOptions := EntryOptions(Some(30), Some(60))

  /** The message the service's own null check passes as the parameter name
      of its `ArgumentNullException`. */
  const NullCacheErrorMessage := "Key not exists nor were able to set the one"

  /** The text before and after the interpolated key in the JSONPath
      filter selector `$[?(@.CategoryName=="key")]`. */
  const PathPrefix := "$[?(@.CategoryName==\""
  const PathSuffix := "\")]"

  /** The filter path, built by plain interpolation: `key` sits verbatim
      between the prefix and the suffix, with no escaping. It starts with
      `$` and ends with `]`, so trimming the tuple text never reaches it. */
  function CategoryPath(key: string): (path: string)
    ensures Bare(path)
    ensures |path| == |PathPrefix| + |key| + |PathSuffix|
    ensures path[..|PathPrefix|] == PathPrefix && path[|path| - |PathSuffix|..] == PathSuffix
    ensures path[|PathPrefix|..|path| - |PathSuffix|] == key
  {
    PathPrefix + key + PathSuffix
  }

  /** `GetByKeyAsync`: reads through `GetAsync` at the constant key, passing
      the filter only as the tuple's second item. The row decoder always
      receives the whole stored document followed by `", "` and the filter,
      or the filter text alone when the constant key is missing. */
  function GetByKeyAsync(store: Store, key: string, ser: Serializers): (r: Result<ProductsByCategory, CacheError>)
    ensures r.Success? <==> ser.row.decode(DecoderInput(store, Some(CategoryPath(key)))).Parsed?
    ensures r.Success? ==> ser.row.decode(DecoderInput(store, Some(CategoryPath(key)))) == Parsed(r.value)
    ensures ListKey in store && Bare(store[ListKey].text) ==>
              (r.Success? <==> ser.row.decode(FollowedBy(store[ListKey].text, CategoryPath(key))).Parsed?)
    ensures ListKey in store && Bare(store[ListKey].text) && r.Success? ==>
              ser.row.decode(FollowedBy(store[ListKey].text, CategoryPath(key))) == Parsed(r.value)
    ensures ListKey !in store ==> (r.Success? <==> ser.row.decode(CategoryPath(key)).Parsed?)
    ensures ListKey !in store && r.Success? ==> ser.row.decode(CategoryPath(key)) == Parsed(r.value)
    ensures r.Failure? ==> r.error == JsonException || r.error == ArgumentNull("list")
  {
    var path := CategoryPath(key);
    DecoderInputWithPath(store, path);
    GetAsync(store, ListKey, None, Some(path), ser.row)
  }

  /** `GetListFromCacheAsync`: the list `GetAsync` decodes at the constant
      key. The service's own null check cannot fire, because `GetAsync`
      already throws on `null`. */
  function GetListFromCacheAsync(store: Store, ser: Serializers): (r: Result<seq<ProductsByCategory>, CacheError>)
    ensures r.Success? <==> ser.statistics.decode(DecoderInput(store, None)).Parsed?
    ensures r.Success? ==> ser.statistics.decode(DecoderInput(store, None)) == Parsed(r.value)
    ensures r.Failure? ==> r.error != ArgumentNull(NullCacheErrorMessage)
  {
    match GetAsync(store, ListKey, None, None, ser.statistics)
    case Failure(e) => Failure(e)
    case Success(productsByCategories) => Success(productsByCategories)
  }

  /** `SetStatistics`: writes the rows under the constant key with the
      service's options. */
  function SetStatistics(store: Store, statistics: seq<ProductsByCategory>, ser: Serializers): (r: Store)
    ensures r == Written(store, ser.statistics.encode(statistics))
  {
    SetAsync(store, ListKey, statistics, CacheOptions, ser.statistics)
  }

  /** `DropCacheIfExist`: deletes the constant key only when `TryGetValue`
      reports it absent or empty, so a present document is never removed. */
  function DropCacheIfExist(store: Store, ser: Serializers): (r: Result<Store, CacheError>)
    ensures r.Failure? <==> ListKey in store && store[ListKey].text != []
                            && ser.element.decodeLenient(store[ListKey].text).Malformed?
    ensures r.Success? && ListKey in store && store[ListKey].text != [] ==> r.value == store
    ensures r.Success? && (ListKey !in store || store[ListKey].text == []) ==> r.value == store - {ListKey}
  {
    match TryGetValue(store, ListKey, ser.element)
    case Failure(e) => Failure(e)
    case Success((found, _)) =>
      if !found then Success(JsonDel(store, ListKey)) else Success(store)
  }

  /** `SetCacheAsync`: drop-if-absent, compute, write. It fails only when
      the present document is not JSON; otherwise it ends where
      `UpdateCacheAsync` ends. */
  function SetCacheAsync(db: Database, store: Store, ser: Serializers): (r: Result<Store, CacheError>)
    ensures r.Failure? <==> ListKey in store && store[ListKey].text != []
                            && ser.element.decodeLenient(store[ListKey].text).Malformed?
    ensures r.Success? ==> r.value == Written(store, ser.statistics.encode(GetStatistics(db)))
  {
    match DropCacheIfExist(store, ser)
    case Failure(e) => Failure(e)
    case Success(dropped) =>
      var statistics := GetStatistics(db);
      Success(SetStatistics(dropped, statistics, ser))
  }

  /** `UpdateCacheAsync`: delete, then compute, then write. Whatever the
      store held before, the constant key ends holding the fresh aggregate
      with a 30-minute TTL; every other key is untouched. */
  function UpdateCacheAsync(db: Database, store: Store, ser: Serializers): (r: Store)
    ensures ListKey in r && r[ListKey] == Entry(ser.statistics.encode(GetStatistics(db)), Some(ExpiryMinutes))
    ensures r.Keys == store.Keys + {ListKey}
    ensures forall k :: k in store && k != ListKey ==> r[k] == store[k]
  {
    var deleted := JsonDel(store, ListKey);
    var statistics := GetStatistics(db);
    SetStatistics(deleted, statistics, ser)
  }

  /** Both population paths end in the same store, because the final write
      overwrites whatever the drop step left. */
  lemma SetCacheAsyncAgreesWithUpdate(db: Database, store: Store, ser: Serializers)
    requires SetCacheAsync(db, store, ser).Success?
    ensures SetCacheAsync(db, store, ser).value == UpdateCacheAsync(db, store, ser)
  {
  }

  /** The configured options never reach the store: the TTL is 30 minutes
      whatever options the write is given, and the absolute hour is not
      applied. */
  lemma CacheOptionsHaveNoEffect(store: Store, statistics: seq<ProductsByCategory>, options: EntryOptions, ser: Serializers)
    ensures SetStatistics(store, statistics, ser) == SetAsync(store, ListKey, statistics, options, ser.statistics)
    ensures SetStatistics(store, statistics, ser)[ListKey].ttlMinutes == Some(ExpiryMinutes)
  {
  }

  /** Rebuild then read: the list read back is exactly the freshly computed
      aggregate, one row per category in category order. */
  lemma UpdateThenReadRoundTrip(db: Database, store: Store, ser: Serializers)
    requires Lawful(ser.statistics)
    ensures GetListFromCacheAsync(UpdateCacheAsync(db, store, ser), ser) == Success(GetStatistics(db))
  {
    var updated := UpdateCacheAsync(db, store, ser);
    assert Bare(ser.statistics.encode(GetStatistics(db)));
    DecoderInputWithoutPath(updated, None);
  }

  /** Reading an unpopulated cache fails with a `JsonException` (the empty
      text is not JSON); it never yields an empty or default list. */
  lemma ReadOfEmptyCacheFails(store: Store, ser: Serializers)
    requires Lawful(ser.statistics)
    requires ListKey !in store
    ensures GetListFromCacheAsync(store, ser) == Failure(JsonException)
  {
    GetAsyncOnMissingKey(store, ListKey, None, ser.statistics);
  }

  /** The element deserializer accepts every document the list serializer
      writes (any JSON text deserializes to `object`). */
  ghost predicate ElementAcceptsStatistics(ser: Serializers) {
    forall v :: ser.element.decodeLenient(ser.statistics.encode(v)) != Malformed
  }

  /** Populating twice is the same as populating once. */
  lemma SetCacheAsyncIdempotent(db: Database, store: Store, ser: Serializers)
    requires Lawful(ser.statistics) && ElementAcceptsStatistics(ser)
    requires SetCacheAsync(db, store, ser).Success?
    ensures var once := SetCacheAsync(db, store, ser).value;
            SetCacheAsync(db, once, ser) == Success(once)
  {
    var once := SetCacheAsync(db, store, ser).value;
    var statistics := GetStatistics(db);
    assert Bare(ser.statistics.encode(statistics));
    assert ser.element.decodeLenient(ser.statistics.encode(statistics)) != Malformed;
    assert once[ListKey].text == ser.statistics.encode(statistics);
    assert DropCacheIfExist(once, ser) == Success(once);
    assert Written(once, ser.statistics.encode(statistics)) == once;
  }

  /** `GetByKeyAsync` reads the whole document at the constant key: with a
      bare document there, the deserializer receives that document followed
      by `", "` and the filter text, never a filtered row. */
  lemma GetByKeyAsyncDecodesWholeDocument(store: Store, key: string)
    requires ListKey in store && Bare(store[ListKey].text)
    ensures DecoderInput(store, Some(CategoryPath(key))) == FollowedBy(store[ListKey].text, CategoryPath(key))
  {
    DecoderInputWithPath(store, CategoryPath(key));
  }
}

=== FILE: redis_store.dfy ===
/** The Redis database as the extensions see it: a map from key to a JSON
    document's text and the key's remaining time to live. Each RedisJSON or
    key command the C# code issues is one pure transition on that map. */
module RedisStore {

  import opened Wrappers

  /** A stored document and its TTL in minutes (`None`: no expiry). */
  datatype Entry = Entry(text: string, ttlMinutes: Option<nat>)

  type Store = map<string, Entry>

  /** `Constants.LIST_PRODUCTS_BY_CATEGORY_REDIS_KEY`. Its literal value is
      defined in `Constants.cs`, which this model does not include, so it is
      left unspecified: every property below holds whatever string it is. */
  const ListKey: string

  /** `JSON.GET key`, rendered to text: a missing key reads as the empty
      string (a nil reply prints as nothing). */
  function JsonGet(store: Store, key: string): string {
    if key in store then store[key].text else ""
  }

  /** `JSON.SET key $ text`: replaces the whole document. An existing key
      keeps its TTL; a new key has none. */
  function JsonSet(store: Store, key: string, text: string): Store {
    store[key := Entry(text, if key in store then store[key].ttlMinutes else None)]
  }

  /** `JSON.DEL key`: removes the key; deleting a missing key changes nothing. */
  function JsonDel(store: Store, key: string): Store {
    store - {key}
  }

  /** `EXPIRE key minutes`: sets the TTL of an existing key; a missing key is
      left missing. */
  function KeyExpire(store: Store, key: string, minutes: nat): Store {
    if key in store then store[key := store[key].(ttlMinutes := Some(minutes))] else store
  }
}

=== FILE: statistics.dfy ===
/** The relational snapshot the service reads and the aggregate it builds:
    one `ProductsByCategory` row per category, counting that category's
    products. */
module Statistics {

  /** A category row. Only `Id` and `Name` take part in the aggregate. */
  datatype Category = Category(id: int, name: string, description: string)

  /** A product row; it belongs to the category whose `Id` equals its
      `CategoryId`. */
  datatype Product = Product(id: int, name: string, categoryId: int)

  /** The database contents the aggregation query sees. */
  datatype Database = Database(categories: seq<Category>, products: seq<Product>)

  /** One aggregate row: a category's name and how many products it has. */
  datatype ProductsByCategory = ProductsByCategory(categoryName: string, productCount: nat)

  /** The positions of the products that belong to category `categoryId`:
      the category's `Products` navigation collection. */
  ghost function ProductsOf(products: seq<Product>, categoryId: int): set<int> {
    set i | 0 <= i < |products| && products[i].categoryId == categoryId
  }

  /** Dropping the last product removes at most its own position. */
  lemma {:induction false} ProductsOfSnoc(products: seq<Product>, categoryId: int)
    requires products != []
    ensures var init := products[..|products| - 1];
            var last := |products| - 1;
            ProductsOf(products, categoryId)
              == ProductsOf(init, categoryId) + (if products[last].categoryId == categoryId then {last} else {})
  {
    var init := products[..|products| - 1];
    var last := |products| - 1;
    var extra: set<int> := if products[last].categoryId == categoryId then {last} else {};
    forall i | i in ProductsOf(products, categoryId)
      ensures i in ProductsOf(init, categoryId) + extra
    {
      if i < last {
        assert init[i] == products[i];
      }
    }
    forall i | i in ProductsOf(init, categoryId) + extra
      ensures i in ProductsOf(products, categoryId)
    {
      if i < last {
        assert init[i] == products[i];
      }
    }
  }

  /** `x.Products.Count()`: the number of products whose `CategoryId` is
      `categoryId`. */
  function CountProducts(products: seq<Product>, categoryId: int): (n: nat)
    ensures n == |ProductsOf(products, categoryId)|
    ensures n <= |products|
    decreases |products|
  {
    if products == [] then
      assert ProductsOf(products, categoryId) == {};
      0
    else
      var init := products[..|products| - 1];
      ProductsOfSnoc(products, categoryId);
      assert |products| - 1 !in ProductsOf(init, categoryId);
      CountProducts(init, categoryId) + (if products[|products| - 1].categoryId == categoryId then 1 else 0)
  }

  /** The projection `new ProductsByCategory { CategoryName = x.Name,
      ProductCount = x.Products.Count() }` applied to each category in turn. */
  function Rows(categories: seq<Category>, products: seq<Product>): (r: seq<ProductsByCategory>)
    ensures |r| == |categories|
    ensures forall i :: 0 <= i < |r| ==>
              r[i] == ProductsByCategory(categories[i].name, |ProductsOf(products, categories[i].id)|)
    decreases |categories|
  {
    if categories == [] then []
    else
      [ProductsByCategory(categories[0].name, CountProducts(products, categories[0].id))]
        + Rows(categories[1..], products)
  }

  /** `GetStatistics`: one row per category, in category order, with every
      category present even when it has no products. */
  function GetStatistics(db: Database): (r: seq<ProductsByCategory>)
    ensures |r| == |db.categories|
    ensures forall i :: 0 <= i < |r| ==>
              && r[i].categoryName == db.categories[i].name
              && r[i].productCount == |ProductsOf(db.products, db.categories[i].id)|
  {
    Rows(db.categories, db.products)
  }

  /** A category with no products still has its row, with a count of zero. */
  lemma EmptyCategoryCountsZero(db: Database, i: int)
    requires 0 <= i < |db.categories|
    requires forall p :: p in db.products ==> p.categoryId != db.categories[i].id
    ensures GetStatistics(db)[i] == ProductsByCategory(db.categories[i].name, 0)
  {
    assert forall k :: 0 <= k < |db.products| ==> db.products[k] in db.products;
    assert ProductsOf(db.products, db.categories[i].id) == {};
  }

  /** Category ids are distinct, as the primary key on `Category.Id`
      guarantees. */
  ghost predicate DistinctIds(categories: seq<Category>) {
    forall i, j :: 0 <= i < j < |categories| ==> categories[i].id != categories[j].id
  }

  /** The product's `CategoryId` is the `Id` of one of `categories`. */
  ghost predicate InCategories(p: Product, categories: seq<Category>) {
    exists i :: 0 <= i < |categories| && p.categoryId == categories[i].id
  }

  /** Every product refers to an existing category, as the foreign key from
      `Product.CategoryId` guarantees. */
  ghost predicate ProductsReferToCategories(db: Database) {
    forall p :: p in db.products ==> InCategories(p, db.categories)
  }

  /** The positions of the products that belong to any of `categories`. */
  ghost function ProductsOfAny(products: seq<Product>, categories: seq<Category>): set<int> {
    set k | 0 <= k < |products| && InCategories(products[k], categories)
  }

  /** The sum of the `ProductCount` column. */
  function TotalCount(rows: seq<ProductsByCategory>): nat {
    if rows == [] then 0 else rows[0].productCount + TotalCount(rows[1..])
  }

  /** The products of a non-empty category list split into those of its
      first category and those of the rest, disjointly when ids are distinct. */
  lemma ProductsOfAnyCons(products: seq<Product>, categories: seq<Category>)
    requires categories != []
    requires DistinctIds(categories)
    ensures ProductsOfAny(products, categories)
              == ProductsOf(products, categories[0].id) + ProductsOfAny(products, categories[1..])
    ensures ProductsOf(products, categories[0].id) !! ProductsOfAny(products, categories[1..])
  {
    var rest := categories[1..];
    forall k | k in ProductsOfAny(products, categories)
      ensures k in ProductsOf(products, categories[0].id) + ProductsOfAny(products, rest)
    {
      var i :| 0 <= i < |categories| && products[k].categoryId == categories[i].id;
      if i > 0 {
        assert rest[i - 1] == categories[i];
      }
    }
    forall k | k in ProductsOfAny(products, rest)
      ensures k in ProductsOfAny(products, categories) && k !in ProductsOf(products, categories[0].id)
    {
      var i :| 0 <= i < |rest| && products[k].categoryId == rest[i].id;
      assert rest[i] == categories[i + 1];
    }
  }

  /** The tail of a list with distinct ids has distinct ids. */
  lemma DistinctIdsTail(categories: seq<Category>)
    requires categories != [] && DistinctIds(categories)
    ensures DistinctIds(categories[1..])
  {
    var rest := categories[1..];
    forall i, j | 0 <= i < j < |rest| ensures rest[i].id != rest[j].id {
      assert rest[i] == categories[i + 1] && rest[j] == categories[j + 1];
    }
  }

  /** With distinct category ids, the per-category counts partition the
      products that belong to some category. */
  lemma {:induction false} RowsTotal(categories: seq<Category>, products: seq<Product>)
    requires DistinctIds(categories)
    ensures TotalCount(Rows(categories, products)) == |ProductsOfAny(products, categories)|
    decreases |categories|
  {
    if categories == [] {
      assert ProductsOfAny(products, categories) == {};
    } else {
      DistinctIdsTail(categories);
      RowsTotal(categories[1..], products);
      ProductsOfAnyCons(products, categories);
      assert Rows(categories, products)[1..] == Rows(categories[1..], products);
    }
  }

  /** Under the foreign key, every position of a product list belongs to
      some category, so there are as many as there are products. */
  lemma {:induction false} AllProductsBelong(products: seq<Product>, categories: seq<Category>)
    requires forall p :: p in products ==> InCategories(p, categories)
    ensures |ProductsOfAny(products, categories)| == |products|
    decreases |products|
  {
    if products == [] {
      assert ProductsOfAny(products, categories) == {};
    } else {
      var init := products[..|products| - 1];
      var last := |products| - 1;
      assert forall p :: p in init ==> p in products;
      AllProductsBelong(init, categories);
      assert products[last] in products;
      assert ProductsOfAny(products, categories) == ProductsOfAny(init, categories) + {last} by {
        forall k | k in ProductsOfAny(products, categories) && k < last
          ensures k in ProductsOfAny(init, categories)
        {
          assert init[k] == products[k];
        }
        forall k | k in ProductsOfAny(init, categories)
          ensures k in ProductsOfAny(products, categories)
        {
          assert init[k] == products[k];
        }
      }
    }
  }

  /** Every product is counted exactly once: under the key constraints of
      the database, the `ProductCount` column sums to the number of products. */
  lemma StatisticsCountEveryProduct(db: Database)
    requires DistinctIds(db.categories)
    requires ProductsReferToCategories(db)
    ensures TotalCount(GetStatistics(db)) == |db.products|
  {
    RowsTotal(db.categories, db.products);
    AllProductsBelong(db.products, db.categories);
  }
}

=== FILE: trimming.dfy ===
/** `String.Trim(params char[])` restricted to the four characters that
    `GetAsync` strips from the rendered value tuple: `(`, `)`, space and `,`. */
module Trimming {

  /** One of the characters removed from both ends. */
  predicate IsTrimChar(c: char) {
    c == '(' || c == ')' || c == ' ' || c == ','
  }

  /** Every character of `s` is a trim character. */
  predicate AllTrimChars(s: string) {
    forall k :: 0 <= k < |s| ==> IsTrimChar(s[k])
  }

  /** Non-empty, and neither the first nor the last character is a trim
      character: the shape of every compact JSON document. */
  predicate Bare(s: string) {
    |s| > 0 && !IsTrimChar(s[0]) && !IsTrimChar(s[|s| - 1])
  }

  /** Removes the leading run of trim characters. */
  function TrimStart(s: string): (r: string)
    ensures |r| <= |s| && r == s[|s| - |r|..]
    ensures AllTrimChars(s[..|s| - |r|])
    ensures r == [] || !IsTrimChar(r[0])
    decreases |s|
  {
    if |s| > 0 && IsTrimChar(s[0]) then TrimStart(s[1..]) else s
  }

  /** Removes the trailing run of trim characters. */
  function TrimEnd(s: string): (r: string)
    ensures |r| <= |s| && r == s[..|r|]
    ensures AllTrimChars(s[|r|..])
    ensures r == [] || !IsTrimChar(r[|r| - 1])
    decreases |s|
  {
    if |s| > 0 && IsTrimChar(s[|s| - 1]) then TrimEnd(s[..|s| - 1]) else s
  }

  /** `s.Trim('(', ')', ' ', ',')`: the result is the contiguous part of `s`
      left after removing the maximal runs of trim characters at both ends. */
  function Trim(s: string): (r: string)
    ensures |r| <= |s|
    ensures r == [] || (!IsTrimChar(r[0]) && !IsTrimChar(r[|r| - 1]))
    ensures exists i :: 0 <= i <= |s| - |r| && r == s[i..i + |r|]
                        && AllTrimChars(s[..i]) && AllTrimChars(s[i + |r|..])
  {
    var t := TrimStart(s);
    var r := TrimEnd(t);
    var i := |s| - |t|;
    assert r == s[i..i + |r|];
    assert s[i + |r|..] == t[|r|..];
    r
  }

  /** Trimming an already trimmed string changes nothing. */
  lemma TrimIdempotent(s: string)
    ensures Trim(Trim(s)) == Trim(s)
  {
    var r := Trim(s);
    assert TrimStart(r) == r;
    assert TrimEnd(r) == r;
  }

  /** A leading run of trim characters does not change `TrimStart`. */
  lemma {:induction false} TrimStartSkips(p: string, s: string)
    requires AllTrimChars(p)
    ensures TrimStart(p + s) == TrimStart(s)
    decreases |p|
  {
    if p == [] {
      assert p + s == s;
    } else {
      assert (p + s)[0] == p[0] && (p + s)[1..] == p[1..] + s;
      assert IsTrimChar(p[0]);
      TrimStartSkips(p[1..], s);
    }
  }

  /** A trailing run of trim characters does not change `TrimEnd`. */
  lemma {:induction false} TrimEndSkips(s: string, p: string)
    requires AllTrimChars(p)
    ensures TrimEnd(s + p) == TrimEnd(s)
    decreases |p|
  {
    if p == [] {
      assert s + p == s;
    } else {
      var q := p[..|p| - 1];
      assert (s + p)[|s + p| - 1] == p[|p| - 1];
      assert (s + p)[..|s + p| - 1] == s + q;
      assert IsTrimChar(p[|p| - 1]);
      TrimEndSkips(s, q);
    }
  }

  /** The text between trim-character runs survives `Trim` whole when it is
      bare: trimming stops at its first and last characters. */
  lemma TrimKeepsBareCore(p: string, core: string, q: string)
    requires AllTrimChars(p) && AllTrimChars(q)
    requires Bare(core)
    ensures Trim(p + core + q) == core
  {
    assert p + core + q == p + (core + q);
    TrimStartSkips(p, core + q);
    assert TrimStart(core + q) == core + q;
    TrimEndSkips(core, q);
    assert TrimEnd(core) == core;
  }

  /** A string made only of trim characters trims to nothing. */
  lemma TrimKeepsNothing(s: string)
    requires AllTrimChars(s)
    ensures Trim(s) == []
  {
    TrimStartSkips(s, []);
    assert s + [] == s;
  }
}

=== FILE: wrappers.dfy ===
/** Wrappers used across the model: `Option` for the C# code's nullable
    values and `Result` for the exceptions it throws. */
module Wrappers {

  /** A nullable value: `None` stands for C#'s `null` / `default`. */
  datatype Option<+T> = None | Some(value: T) {

    /** The value, or `default` when there is none (C#'s `??`). */
    function GetOr(default: T): T {
      match this
      case Some(v) => v
      case None => default
    }
  }

  /** Either a returned value or the exception the C# code throws. */
  datatype Result<+R, +E> = Success(value: R) | Failure(error: E)
}
